=== FILE: README.md ===
# Tumbluv crowdfunding backend — detail view and account views in Dafny

This project models the request logic of two Django view modules of the Tumbluv
crowdfunding backend and proves properties of that model:

- `ProjectDetailView.get` (project/views.py) assembles the detail document of one
  project found by its URI slug: `project_info` (category, names, amounts, whole days
  to closing, a payment date one day after closing, the viewer's `like` flag and one
  `option` entry per gift), `creator_info`, and `tab` (the story and a two-level
  comment tree, root comments newest first, each with its direct replies, where
  `communities` is `''` for a project with no comment and `recomment` is `''` for a
  comment with no reply).
- `SignUpView.post`, `ValidateCodeView.post` and `SignInView.post` (user/views.py):
  request validation with a fixed order of checks, insertion of a user, and the
  one-row state machine of an e-mail verification code.

The database is a value: every table is a sequence of immutable records in storage
order (`Records`), and every view is a pure function from the tables, the request
and the instant `now` to a response (and, for the account views, the tables
afterwards). Instants are integers counting microseconds, the resolution of Python's
`datetime`; `Clock` gives `timedelta.days` (floored whole days) and
`timedelta.seconds` (the seconds left once whole days are removed). An exception a
view does not catch is the explicit outcome `Uncaught(fault)` (status 500); the faults
the model represents are `DoesNotExist`, `MultipleObjectsReturned` and `AttributeError`
(a read through a NULL column), so no view has a precondition. The cryptography the account views call
(bcrypt's salted hash and check, the JWT encoder) is passed in as function values of
a `Crypto` record; the viewer that the authentication decorator supplies is a
parameter `Option<Id>`.

Modules: `Records` (rows, `Option`, `Eval`, the `.get` rule), `Clock`, `Seqs`
(order-preserving filter), `CommentTree` (roots, replies, newest-first order),
`ProjectViews` and `ProjectProperties` (the detail view and facts about it),
`ProjectFixture` (the detail view's test scenario replayed), `UserViews` and
`UserProperties` (the account views and facts about them).

## Notes on the code

- `communities` is `''` only when the project has no comment at all, replies
  included (project/views.py:63); a project whose only comments are replies gets
  an empty list.
- The `''` placeholders of `communities` and `recomment` are the `Blank` case of
  `Listing`.
- The view and its tests read `total_amount` and `project_uri`, which
  project/models.py:22 names `total_price` and does not declare; the model has
  `totalAmount` and `uri`.
- `Community.parent` is declared non-nullable in project/models.py:43, but root
  comments have a NULL parent in the tests and in the view's filter; it is optional.
- The verification window compares `timedelta.seconds`, not the total elapsed time
  (see Findings).
- user/urls.py routes no URL to `SignUpView`; it is modelled all the same.

## Model

| member | source | states |
|---|---|---|
| `ProjectViews.ProjectDetail` | project/views.py:15-21 | The answer is PROJECT_NOT_EXIST, status 404, exactly when no project has the slug. |
| `ProjectViews.BuildDetail` | project/views.py:23-70 | A built document copies the project's attributes, names the owner as creator in both places with the owner's description, gives floored whole days to closing and a payment date exactly one day after closing, sets `like` iff a signed-in viewer has a Like row, lists one option per gift in order, carries the project's story and its comment tree; a NULL category raises AttributeError. |
| `ProjectViews.UserById` | project/views.py:27 | A related user is a row with that id; a missing row raises DoesNotExist. |
| `ProjectViews.CategoryById` | project/views.py:24 | A related category is a row with that id; a missing row raises DoesNotExist. |
| `ProjectViews.CategoryName` | project/views.py:24 | The category name is produced iff the project has a category id naming a row, and is that row's name. |
| `ProjectViews.AuthorName` | project/views.py:52 | A comment's author name comes from the user row its user id names; a NULL or dangling user id raises. |
| `ProjectViews.HasLike` | project/views.py:34 | True iff some Like row links the project with the user. |
| `ProjectViews.LikeFlag` | project/views.py:34 | `like` holds iff the viewer is signed in and a Like row for (project, viewer) exists; false for anonymous viewers. |
| `ProjectViews.OptionEntries` | project/views.py:35-41 | One entry per gift in the same order, presenting name as description, price as money, quantity sold as people, and the stock. |
| `ProjectViews.StoryOf` | project/views.py:50 | The story is produced iff exactly one Story row belongs to the project, and it is that row. |
| `ProjectViews.ReplyEntries` | project/views.py:56-60 | One reply entry per direct reply, in order, each with the reply's text, creation time and author name; produced iff every reply has a readable author. |
| `ProjectViews.RootEntryOf` | project/views.py:51-61 | A root entry carries the comment's text, creation time, author, floored days since its last update, and `recomment` that is `''` iff the comment has no direct reply and otherwise presents every direct reply in order; produced iff the comment and its replies have readable authors. |
| `ProjectViews.RootEntries` | project/views.py:51-62 | One root entry per comment, in the given order, each presenting its comment; produced iff every comment is presentable. |
| `ProjectViews.SameComments` | project/views.py:62 | Reordering the root comments does not change which of them there are, nor whether all are presentable. |
| `ProjectViews.Communities` | project/views.py:51-63 | `communities` is `''` iff the project has no comment at all; otherwise it lists every root comment of the project once, newest first; it raises iff the project has comments and some root comment is not presentable. |
| `CommentTree.Insert` | project/views.py:62 | Inserting into a newest-first list keeps it newest first and adds exactly the one comment. |
| `CommentTree.SortNewestFirst` | project/views.py:62 | The result is ordered by creation time, newest first, and is a permutation of the input. |
| `CommentTree.NewestBelowHead` | project/views.py:62 | In a newest-first list no comment after the head is newer than the head. |
| `Records.Get` | user/views.py:54 | `.get` returns the single matched row; no row raises DoesNotExist and several raise MultipleObjectsReturned. |
| `Seqs.Filter` | project/views.py:41 | A selection holds exactly the rows that satisfy the condition, no more rows than the table. |
| `Seqs.FilterConcat` | project/views.py:60 | Selection distributes over concatenation, so storage order is kept. |
| `Seqs.FilterEmpty` | project/views.py:18 | A selection is empty iff no row satisfies the condition (the `.exists()` test). |
| `Clock.Days` | project/views.py:30 | `timedelta.days` is the floor of the duration in whole days. |
| `Clock.Seconds` | user/views.py:56 | `timedelta.seconds` lies in [0, 86400) and counts the whole seconds left after `.days` days. |
| `Clock.DaysUnique` | project/views.py:54 | The floor bracket determines `.days`. |
| `Clock.SecondsWithinOneDay` | user/views.py:56 | For a duration under one day, `.seconds` is the whole elapsed seconds. |
| `Clock.SecondsForgetsDays` | user/views.py:56 | Adding a day does not change `.seconds`. |
| `ProjectProperties.Resolves` | project/views.py:18-21 | A document answered for a slug describes the project with that slug. |
| `ProjectProperties.OkNeedsUniqueSlug` | project/views.py:21 | A document needs exactly one project with the slug; several make `.get` raise MultipleObjectsReturned. |
| `ProjectProperties.ViewerOnlyChangesLike` | project/views.py:18-34 | Two viewers get the same answer except for `like`: the same not-found, the same failure, the same document otherwise. |
| `ProjectProperties.LikeMeaning` | project/views.py:34 | In a document `like` holds iff the viewer is signed in and has a Like row for the project; an anonymous viewer never sees it. |
| `ProjectProperties.DetailSucceeds` | project/views.py:21-63 | When the slug names one project with a category, an owner, exactly one story and authors for all root comments and their replies, the answer is a document. |
| `ProjectFixture.FixtureDocuments` | project/tests.py:100-192 | The test scenario yields exactly the expected document, with `like` false anonymously and true for user 1. |
| `ProjectFixture.FixtureBuild` | project/tests.py:104-144 | The scenario's document, field by field, for either viewer. |
| `ProjectFixture.FixtureAssemble` | project/tests.py:104-127 | From the rows the scenario's lookups find, the project information carries 11 days to closing, a payment date of 2021-02-01, the one gift as its option and `like` only for user 1. |
| `ProjectFixture.FixtureLookups` | project/tests.py:38-89 | The scenario's slug, category, owner, story, gifts and like flags resolve as the test sets them up. |
| `ProjectFixture.FixtureDays` | project/tests.py:113 | 2021-01-31 minus 2021-01-20 is 11 whole days; a comment written at the frozen instant is 0 days old. |
| `ProjectFixture.FixtureCommunities` | project/tests.py:130-142 | The scenario's comment tree is one root comment with its one reply. |
| `ProjectFixture.FixtureUnknownSlug` | project/tests.py:194-202 | An unknown slug gets PROJECT_NOT_EXIST with status 404 for either viewer. |
| `UserViews.HasEmail` | user/views.py:81 | True iff some user has the e-mail. |
| `UserViews.SignUp` | user/views.py:68-99 | Sign-up never raises and gives no token; any refusal leaves the tables unchanged; it succeeds iff the three keys are present, the e-mail is free, the full name has 2..40 characters and the password 6..20; success appends exactly the new user under the next id with the hashed password. |
| `UserViews.Delete` | user/views.py:57 | Deleting a row keeps exactly the rows with another id. |
| `UserViews.Validate` | user/views.py:46-66 | Users never change; NEED_CODE iff a key is missing; it raises iff the e-mail does not have exactly one row; only TIME_OUT and EMAIL_VALIDATE_SUCCESS change the tables, and both delete that row; TIME_OUT means the row expired, success means the code matched an unexpired row. |
| `UserViews.ValidateCode` | user/views.py:56-63 | As written, success means a row for the e-mail has the sent code and `.seconds` of its age is under 60; TIME_OUT means `.seconds` of its age is at least 60. |
| `UserViews.ValidateCodeWithinWindow` | user/views.py:56-58 | With the whole elapsed time compared, success means the matching row was issued less than 60 seconds ago. |
| `UserViews.SignIn` | user/views.py:101-121 | INVALID_KEY iff a key is missing; INVALID_USER iff no user has the e-mail; SUCCESS only with a token over the id of a user with that e-mail whose stored hash the password check accepts; no other answer carries a token. |
| `UserProperties.SignUpErrorOrder` | user/views.py:75-88 | The first failing check, in the order keys, e-mail taken, full name length, password length, decides the answer, with the tables unchanged. |
| `UserProperties.SignUpInsertsOneUser` | user/views.py:90-96 | Success adds exactly one user at the end, with the next id, the e-mail, the full name and the hashed password; earlier users are untouched and the e-mail is then taken. |
| `UserProperties.SignUpPreservesWellFormed` | user/views.py:81-94 | Sign-up keeps ids distinct and below the next id and e-mails distinct. |
| `UserProperties.SignUpTwiceRefused` | user/views.py:81-82 | A second sign-up with the same e-mail is refused with ALREADY_EXIST and changes nothing. |
| `UserProperties.AtMostOneWithEmail` | user/models.py:5 | With distinct e-mails, at most one user has a given e-mail. |
| `UserProperties.NewUserFoundByEmail` | user/views.py:90-94 | After a sign-up, the new user is the only one with its e-mail. |
| `UserProperties.SignUpThenSignIn` | user/views.py:90-117 | After a sign-up, signing in with the same e-mail and password succeeds with a token over the new id, given that the password check accepts its own hash. |
| `UserProperties.SignInDecidedByPassword` | user/views.py:112-118 | With exactly one user for the e-mail, SUCCESS with a token over that user's id iff the password check passes, otherwise SIGNIN_FAIL. |
| `UserProperties.SignInNeverAmbiguous` | user/views.py:112 | In well-formed tables sign-in never raises MultipleObjectsReturned. |
| `UserProperties.ValidateCodeTransitions` | user/views.py:56-63 | For the one row of the e-mail: expiry is tested first and deletes the row whatever the code; within the window a wrong code keeps the row and the right code deletes it. |
| `UserProperties.ValidateCodeNeedsKeys` | user/views.py:51-66 | A request without code or e-mail gets NEED_CODE and changes nothing. |
| `UserProperties.DeleteRemovesOne` | user/views.py:57 | With distinct ids, deleting a row removes it and keeps every other row. |
| `UserProperties.StaleAfterWholeDays` | user/views.py:56 | As written, a row issued any whole number of days plus under 60 seconds ago has not expired. |
| `UserProperties.StaleCodeAccepted` | user/views.py:56-63 | A code issued one day and five seconds ago is accepted as written and refused as expired by the corrected view. |
| `UserProperties.ExpiryAgreesWithinOneDay` | user/views.py:56 | For rows less than a day old the written and the corrected expiry tests agree. |

## Left out

- `KakaoSignInView` (user/views.py:16-44): an outbound HTTP call to the OAuth provider and a catch-all handler; network plumbing.
- bcrypt hashing and checking and JWT encoding are foreign cryptographic libraries; they are the `Crypto` parameter. `hashpw` and `checkpw` are total functions there, so they are assumed never to raise; beyond that no property is assumed except where a lemma states one (`SignUpThenSignIn` assumes the check accepts the hash it made). The fresh salt `bcrypt.gensalt()` draws at user/views.py:79 is part of the `Crypto` value, so one `Crypto` hashes equal passwords to equal strings.
- `user_decorator` (user/utils) is not part of this model; the viewer it supplies is the parameter `viewer: Option<Id>`.
- Django's ORM, `JsonResponse` and `json.loads`: a body that is not JSON raises at `json.loads` (user/views.py:50, 74, 103); fields that are not strings are not modelled (the body is `map<string, string>`).
- Rendering: Decimal values are kept as hundredths, not as strings such as `'0.50'`; instants are kept as integers, not `strftime` text.
- Clocks: `now` is a parameter; both clocks, `datetime.now()` of the detail view and `timezone.now()` of the code check, are read with time-zone support off (naive local time), on the same clock as the stored instants, which the naive subtraction at project/views.py:30 requires; with time-zone support on, line 30 raises TypeError, which is not modelled.
- String lookups compare by exact equality: the `project_uri` lookups (project/views.py:18, 21) and the e-mail lookups (user/views.py:54, 81, 109, 112); a case-insensitive database collation, under which a slug or e-mail differing only in case would match, is not modelled.
- Storage order is sequence order. `order_by('-created_at')` leaves the order of equal creation times to the database: `CommentTree.SortNewestFirst` keeps such comments in storage order, but `ProjectViews.ListsRoots`, and so the contracts of `ProjectViews.Communities` and of the view, accept any newest-first arrangement of the root comments.
- The two queries of the detail view and of the sign-in view (an `exists` followed by a `get`: project/views.py:18, 21 and user/views.py:109, 112), like every query of the other views, read one unchanging snapshot; concurrent writers are not modelled.
- Django's `on_delete` cascades and the schema-only modules (order/models.py, message/models.py) are framework behaviour and data with no logic in the modelled views.
- The project listing with its filters and the project registration are not implemented by any of the modelled files, so they are not part of this model.
- The HTTP status 500 for an uncaught exception is Django's default, represented by `Uncaught`; its error page is not modelled.
- UserViews.SignUp: the hash and the insert are taken to succeed, so its contract says sign-up never raises; dropped are bcrypt's ValueError at user/views.py:79 (bcrypt 3.x refuses a password containing a NUL character) and the database refusing the insert at user/views.py:90 when the e-mail exceeds the 200-character `email` column of user/models.py:5.
- UserViews.SignIn: `checkpw` is taken never to raise, so `UserProperties.SignInDecidedByPassword` answers SIGNIN_FAIL for every failed check; dropped is bcrypt's ValueError ("Invalid salt") at user/views.py:114 when the stored password is not a bcrypt hash.
- ProjectViews.RootEntries: states when the entries are produced, not which fault is raised first when they are not.
- ProjectViews.BuildDetail: its contract states the document and the NULL-category fault; the remaining failure conditions are stated as a sufficient condition for success by `ProjectProperties.DetailSucceeds` rather than fault by fault.

## Findings

| source | as written | input that shows it | evidently intended | confidence | as-written member | corrected member |
|---|---|---|---|---|---|---|
| user/views.py:56 | the code expires when the `.seconds` field of the elapsed timedelta reaches 60, and that field drops whole days | a verification row issued at instant 0 with code 123456, checked with the matching code one day and five seconds later, is accepted with EMAIL_VALIDATE_SUCCESS | expire once the total elapsed time reaches 60 seconds | high; not executed | `UserProperties.StaleCodeAccepted` | `UserViews.ValidateCodeWithinWindow` |

=== FILE: clock.dfy ===
/** The two fields of Python's `timedelta` the views read, for a duration given in
    microseconds. A timedelta is normalised so that its `days` may be negative while
    its `seconds` always lie in [0, 86400). */
module Clock {

  const MICROS_PER_SECOND: int := 1_000_000
  const SECONDS_PER_DAY: int := 86_400
  const MICROS_PER_DAY: int := 86_400_000_000

  /** `timedelta(days=1)` in microseconds. */
  const ONE_DAY: int := MICROS_PER_DAY

  /** `.days`: the whole days in `delta`, rounded towards minus infinity. */
  function Days(delta: int): (d: int)
    ensures d * MICROS_PER_DAY <= delta < d * MICROS_PER_DAY + MICROS_PER_DAY
  {
    delta / MICROS_PER_DAY
  }

  /** `.seconds`: the whole seconds left once `.days` whole days are taken away, so a
      duration of one day and five seconds has `.seconds` equal to 5. */
  function Seconds(delta: int): (s: int)
    ensures 0 <= s < SECONDS_PER_DAY
    ensures Days(delta) * MICROS_PER_DAY + s * MICROS_PER_SECOND <= delta
    ensures delta < Days(delta) * MICROS_PER_DAY + (s + 1) * MICROS_PER_SECOND
  {
    (delta % MICROS_PER_DAY) / MICROS_PER_SECOND
  }

  /** The floor bracket determines `.days`. */
  lemma DaysUnique(delta: int, k: int)
    requires k * MICROS_PER_DAY <= delta < k * MICROS_PER_DAY + MICROS_PER_DAY
    ensures Days(delta) == k
  {
  }

  /** Within a single day, `.seconds` is the whole number of elapsed seconds. */
  lemma SecondsWithinOneDay(delta: int)
    requires 0 <= delta < MICROS_PER_DAY
    ensures Seconds(delta) * MICROS_PER_SECOND <= delta < (Seconds(delta) + 1) * MICROS_PER_SECOND
  {
  }

  /** `.seconds` forgets whole days: adding a day to a duration does not change it. */
  lemma SecondsForgetsDays(delta: int)
    ensures Seconds(delta + MICROS_PER_DAY) == Seconds(delta)
  {
    var d := Days(delta);
    DaysUnique(delta + MICROS_PER_DAY, d + 1);
  }
}

=== FILE: comment_tree.dfy ===
/** The two-level comment tree of a project: root comments (no parent) and, for each,
    its direct replies. */
module CommentTree {
  import opened Records
  import Seqs

  /** `c` is a root comment of project `pid`. */
  predicate IsRootOf(c: Comment, pid: Id) {
    c.projectId == pid && c.parentId.None?
  }

  /** `c` is a direct reply to the comment with id `cid`. */
  predicate IsReplyTo(c: Comment, cid: Id) {
    c.parentId == Some(cid)
  }

  /** `project.community_set.filter(parent_id=None)`, in storage order. */
  function Roots(comments: seq<Comment>, pid: Id): seq<Comment> {
    Seqs.Filter(comments, c => IsRootOf(c, pid))
  }

  /** `community.community_set.all()`: the direct replies, in storage order. */
  function Children(comments: seq<Comment>, cid: Id): seq<Comment> {
    Seqs.Filter(comments, c => IsReplyTo(c, cid))
  }

  /** Ordered by creation time, newest first (`order_by('-created_at')`). */
  predicate NewestFirst(s: seq<Comment>) {
    forall i, j :: 0 <= i < j < |s| ==> s[i].createdAt >= s[j].createdAt
  }

  /** Places `c` in front of the first comment that is not newer than it. */
  function Insert(c: Comment, s: seq<Comment>): (r: seq<Comment>)
    requires NewestFirst(s)
    ensures NewestFirst(r)
    ensures multiset(r) == multiset(s) + multiset{c}
    decreases |s|
  {
    if |s| == 0 || c.createdAt >= s[0].createdAt then
      PrependNewest(c, s);
      [c] + s
    else
      var rest := Insert(c, s[1..]);
      PrependHead(c, s, rest);
      [s[0]] + rest
  }

  /** A comment at least as new as the head of a newest-first list may go in front. */
  lemma PrependNewest(c: Comment, s: seq<Comment>)
    requires NewestFirst(s)
    requires |s| == 0 || c.createdAt >= s[0].createdAt
    ensures NewestFirst([c] + s)
  {
  }

  /** The head of a newest-first list may go back in front of the rest with `c`
      inserted, when `c` is older than the head. */
  lemma PrependHead(c: Comment, s: seq<Comment>, rest: seq<Comment>)
    requires NewestFirst(s) && |s| > 0 && c.createdAt < s[0].createdAt
    requires NewestFirst(rest) && multiset(rest) == multiset(s[1..]) + multiset{c}
    ensures NewestFirst([s[0]] + rest)
    ensures multiset([s[0]] + rest) == multiset(s) + multiset{c}
  {
    assert s == [s[0]] + s[1..];
    NewestBelowHead(s);
    forall x | x in rest
      ensures x.createdAt <= s[0].createdAt
    {
      assert x in multiset(rest);
    }
  }

  /** In a newest-first sequence, the head is at least as new as everything behind it. */
  lemma NewestBelowHead(s: seq<Comment>)
    requires NewestFirst(s) && |s| > 0
    ensures forall x :: x in s[1..] ==> x.createdAt <= s[0].createdAt
  {
  }

  /** The comments of `s` rearranged newest first. The database leaves the order of
      comments created at the same instant unspecified; this contract does too. */
  function SortNewestFirst(s: seq<Comment>): (r: seq<Comment>)
    ensures NewestFirst(r)
    ensures multiset(r) == multiset(s)
    ensures |r| == |s|
    decreases |s|
  {
    if |s| == 0 then []
    else
      assert s == [s[0]] + s[1..];
      Insert(s[0], SortNewestFirst(s[1..]))
  }
}

=== FILE: project_fixture.dfy ===
/** The scenario of the detail view's test case, replayed on the model: one project
    with one gift, one root comment with one reply, one story and one Like, observed
    at 2021-01-20 00:00:00. */
module ProjectFixture {
  import opened Records
  import opened Clock
  import opened ProjectViews
  import CommentTree

  /** Seconds since the Unix epoch of the instants the scenario uses, in microseconds. */
  const JAN_01: Instant := 1609459200 * MICROS_PER_SECOND
  const JAN_20: Instant := 1611100800 * MICROS_PER_SECOND
  const JAN_31: Instant := 1612051200 * MICROS_PER_SECOND
  const FEB_01: Instant := 1612137600 * MICROS_PER_SECOND

  const Owner := User(1, "사용자1", "email1", None, None, Some("소개1"), None)
  const Replier := User(2, "사용자2", "email2", None, None, Some("소개2"), None)

  const TheProject := Project(1, 1, Some(1), "프로젝트1", JAN_01, JAN_31, 50, 50, 30000000,
                              "사진1", 300000000, "프로젝트요약1", "uri")

  /** Comments are stamped with the frozen clock when they are created. */
  const Root := Comment(1, Some(1), 1, None, "댓글1", JAN_20, JAN_20)
  const Reply := Comment(2, Some(2), 1, Some(1), "댓글1-1", JAN_20, JAN_20)

  const Fixture := Store(
    [Owner, Replier],
    [Category(1, "카테고리1")],
    [TheProject],
    [Gift(1, 1, "옵션1", 100000, 10, 10)],
    [Root, Reply],
    [Story(1, 1, "프로젝트 내용")],
    [Like(1, 1, 1)])

  /** The document the test expects, with the given `like` flag. */
  function Expected(like: bool): Detail {
    Detail(
      ProjectInfo("카테고리1", "프로젝트1", "사진1", "사용자1", 50, 30000000, 11, 50, 300000000,
                  FEB_01, like, [OptionEntry(1, "옵션1", 100000, 10, 10)]),
      CreatorInfo("사용자1", Some("소개1")),
      Tab("프로젝트 내용",
          Items([RootEntry("사용자1", "댓글1", 0, JAN_20,
                           Items([ReplyEntry("사용자2", "댓글1-1", JAN_20)]))])))
  }

  /** Anonymous and signed-in requests for `uri` get the same document except for
      `like`, which is set only for user 1, who liked the project. */
  lemma FixtureDocuments()
    ensures ProjectDetail(Fixture, None, "uri", JAN_20) == Ok(Expected(false))
    ensures ProjectDetail(Fixture, Some(1), "uri", JAN_20) == Ok(Expected(true))
  {
    FixtureLookups();
    FixtureBuild(None);
    FixtureBuild(Some(1));
    assert Get([TheProject]) == Value(TheProject);
  }

  /** The document built for the scenario's project. */
  lemma FixtureBuild(viewer: Option<Id>)
    requires viewer == None || viewer == Some(1)
    ensures BuildDetail(Fixture, viewer, TheProject, JAN_20) == Value(Expected(viewer.Some?))
  {
    FixtureLookups();
    FixtureCommunities();
    var story := Story(1, 1, "프로젝트 내용");
    var communities := Expected(false).tab.communities;
    BuildFromParts(Fixture, viewer, TheProject, JAN_20, "카테고리1", Owner, story, communities);
    FixtureAssemble(viewer);
  }

  /** The document of the scenario's project, from the rows its lookups find. */
  lemma FixtureAssemble(viewer: Option<Id>)
    requires viewer == None || viewer == Some(1)
    ensures Assemble(Fixture, viewer, TheProject, JAN_20, "카테고리1", Owner, Story(1, 1, "프로젝트 내용"),
                     Expected(false).tab.communities) == Expected(viewer.Some?)
  {
    FixtureLookups();
    FixtureDays();
    var option := OptionEntries(ProjectGifts(Fixture.gifts, 1));
    assert option == [OptionEntry(1, "옵션1", 100000, 10, 10)];
    var like := LikeFlag(Fixture.likes, 1, viewer);
    assert like == viewer.Some?;
  }

  /** The document assembled from the results of its lookups. */
  lemma BuildFromParts(db: Store, viewer: Option<Id>, p: Project, now: Instant,
                       category: string, owner: User, story: Story, communities: Listing<RootEntry>)
    requires CategoryName(db.categories, p) == Value(category)
    requires UserById(db.users, p.userId) == Value(owner)
    requires StoryOf(db.stories, p.id) == Value(story)
    requires Communities(db, now, p.id) == Value(communities)
    ensures BuildDetail(db, viewer, p, now) == Value(Assemble(db, viewer, p, now, category, owner, story, communities))
  {
  }

  /** The rows the view looks up in the scenario. */
  lemma FixtureLookups()
    ensures WithUri(Fixture.projects, "uri") == [TheProject]
    ensures CategoryName(Fixture.categories, TheProject) == Value("카테고리1")
    ensures UserById(Fixture.users, 1) == Value(Owner)
    ensures StoryOf(Fixture.stories, 1) == Value(Story(1, 1, "프로젝트 내용"))
    ensures ProjectGifts(Fixture.gifts, 1) == Fixture.gifts
    ensures LikeFlag(Fixture.likes, 1, None) == false
    ensures LikeFlag(Fixture.likes, 1, Some(1)) == true
  {
  }

  /** Eleven days separate closing from the frozen clock; the root comment was
      written zero days ago. */
  lemma FixtureDays()
    ensures Days(JAN_31 - JAN_20) == 11
    ensures Days(JAN_20 - JAN_20) == 0
  {
  }

  /** The comment tree of the scenario. */
  lemma FixtureCommunities()
    ensures Communities(Fixture, JAN_20, 1) == Value(Expected(false).tab.communities)
  {
    FixtureTree();
    FixtureRootEntry();
    var entry := Expected(false).tab.communities.items[0];
    assert RootEntries(Fixture, JAN_20, [Root][1..]) == Value([]);
    assert RootEntries(Fixture, JAN_20, [Root]).Value?;
    assert RootEntries(Fixture, JAN_20, [Root]).value == [entry];
    assert HasComments(Fixture.comments, 1) by {
      assert Root in Fixture.comments;
    }
  }

  /** The one root comment and its one reply. */
  lemma FixtureTree()
    ensures CommentTree.Roots(Fixture.comments, 1) == [Root]
    ensures CommentTree.SortNewestFirst([Root]) == [Root]
    ensures CommentTree.Children(Fixture.comments, 1) == [Reply]
  {
    var comments := Fixture.comments;
    assert comments[1..] == [Reply];
    assert comments[1..][1..] == [];
    assert CommentTree.Roots([], 1) == [];
    assert CommentTree.Roots([Reply], 1) == [];
    assert CommentTree.Children([], 1) == [];
    assert CommentTree.Children([Reply], 1) == [Reply];
  }

  /** The entry of the root comment, with its reply. */
  lemma FixtureRootEntry()
    ensures RootEntryOf(Fixture, JAN_20, Root) == Value(Expected(false).tab.communities.items[0])
  {
    FixtureTree();
    FixtureDays();
    var reply := ReplyEntry("사용자2", "댓글1-1", JAN_20);
    assert AuthorName(Fixture.users, Reply) == Value("사용자2") by {
      assert UserById(Fixture.users, 2) == Value(Replier);
    }
    assert ReplyEntries(Fixture.users, [Reply][1..]) == Value([]);
    assert ReplyEntries(Fixture.users, [Reply]).Value?;
    assert ReplyEntries(Fixture.users, [Reply]).value == [reply];
  }

  /** A slug no project has is not found, with status 404. */
  lemma FixtureUnknownSlug()
    ensures ProjectDetail(Fixture, None, "uri2", JAN_20).Status() == 404
    ensures ProjectDetail(Fixture, Some(1), "uri2", JAN_20) == ProjectNotExist
  {
  }
}

=== FILE: project_properties.dfy ===
/** Facts about `ProjectDetailView.get` that relate whole responses: which project a
    document describes, what the viewer changes, and when a document is produced. */
module ProjectProperties {
  import opened Records
  import Seqs
  import opened CommentTree
  import opened ProjectViews

  /** A successful response describes the one project whose slug was asked for. */
  lemma Resolves(db: Store, viewer: Option<Id>, uri: string, now: Instant, p: Project)
    requires p in db.projects && p.uri == uri
    ensures var r := ProjectDetail(db, viewer, uri, now);
            r.Ok? ==> DescribesProject(db, viewer, p, now, r.detail)
  {
    var found := WithUri(db.projects, uri);
    assert p in found;
    if |found| == 1 {
      assert found[0] == p;
    }
  }

  /** A document is produced only for a slug that names exactly one project; a slug
      shared by several projects makes `.get` raise. */
  lemma OkNeedsUniqueSlug(db: Store, viewer: Option<Id>, uri: string, now: Instant)
    ensures ProjectDetail(db, viewer, uri, now).Ok? ==> |WithUri(db.projects, uri)| == 1
    ensures |WithUri(db.projects, uri)| > 1 ==>
              ProjectDetail(db, viewer, uri, now) == Uncaught(MultipleObjectsReturned)
  {
  }

  /** The document with its `like` flag cleared. */
  function WithoutLike(d: Detail): Detail {
    d.(projectInfo := d.projectInfo.(like := false))
  }

  /** Who is looking changes nothing but the `like` flag: an unknown slug is not
      found, and every failure is the same, whether or not the viewer signed in. */
  lemma ViewerOnlyChangesLike(db: Store, v1: Option<Id>, v2: Option<Id>, uri: string, now: Instant)
    ensures var r1 := ProjectDetail(db, v1, uri, now);
            var r2 := ProjectDetail(db, v2, uri, now);
            && (r1.Ok? <==> r2.Ok?)
            && (!r1.Ok? ==> r1 == r2)
            && (r1.Ok? ==> WithoutLike(r1.detail) == WithoutLike(r2.detail))
  {
    var found := WithUri(db.projects, uri);
    if |found| == 1 {
      var p := found[0];
      var b1 := BuildDetail(db, v1, p, now);
      var b2 := BuildDetail(db, v2, p, now);
      assert b1.Value? <==> b2.Value?;
      assert !b1.Value? ==> b1 == b2;
      if b1.Value? {
        assert WithoutLike(b1.value) == WithoutLike(b2.value);
      }
    }
  }

  /** `like` is true exactly for a signed-in viewer with a Like row for this project;
      an anonymous viewer never sees it set. */
  lemma LikeMeaning(db: Store, viewer: Option<Id>, uri: string, now: Instant, p: Project)
    requires p in db.projects && p.uri == uri
    ensures var r := ProjectDetail(db, viewer, uri, now);
            r.Ok? ==> (r.detail.projectInfo.like <==>
                         viewer.Some? && exists l :: l in db.likes && l.projectId == p.id && l.userId == viewer.value)
    ensures var r := ProjectDetail(db, None, uri, now);
            r.Ok? ==> !r.detail.projectInfo.like
  {
    Resolves(db, viewer, uri, now, p);
    Resolves(db, None, uri, now, p);
  }

  /** When every row the view reads is there — one project with the slug, its
      category, its owner, exactly one story, and an author for every root comment
      and every direct reply — the view answers with the document. */
  lemma DetailSucceeds(db: Store, viewer: Option<Id>, uri: string, now: Instant, p: Project)
    requires WithUri(db.projects, uri) == [p]
    requires p.categoryId.Some? && exists c :: c in db.categories && c.id == p.categoryId.value
    requires exists u :: u in db.users && IsOwner(p, u)
    requires |Seqs.Filter(db.stories, (s: Story) => s.projectId == p.id)| == 1
    requires forall c :: c in Roots(db.comments, p.id) ==> Presentable(db, c)
    ensures ProjectDetail(db, viewer, uri, now).Ok?
  {
  }
}

=== FILE: project_views.dfy ===
/** `ProjectDetailView.get`: the detail document of one project, found by its URI
    slug, for an optional viewer, at the instant `now`. */
module ProjectViews {
  import opened Records
  import opened Clock
  import Seqs
  import opened CommentTree

  /** The tables the view reads, each in storage order. */
  datatype Store = Store(
    users: seq<User>,
    categories: seq<Category>,
    projects: seq<Project>,
    gifts: seq<Gift>,
    comments: seq<Comment>,
    stories: seq<Story>,
    likes: seq<Like>)

  /** One entry of `option`: a gift tier under the names the response uses. */
  datatype OptionEntry = OptionEntry(id: Id, description: string, money: Decimal, people: int, stock: int)

  datatype ProjectInfo = ProjectInfo(
    category: string,
    name: string,
    thumbnailUrl: string,
    creator: string,
    achievedRate: Decimal,
    totalAmount: Decimal,
    restDate: int,
    totalSupporters: int,
    goalAmount: Decimal,
    paymentDate: Instant,
    like: bool,
    option: seq<OptionEntry>)

  datatype CreatorInfo = CreatorInfo(name: string, creatorDescription: Option<string>)

  /** A list-valued field that the view renders as the empty string `''` instead of
      an empty list when there is nothing to show. `Items` may still hold `[]`. */
  datatype Listing<T> = Blank | Items(items: seq<T>)

  datatype ReplyEntry = ReplyEntry(user: string, comment: string, createdAt: Instant)

  datatype RootEntry = RootEntry(
    user: string,
    comment: string,
    pastDate: int,
    createdAt: Instant,
    recomment: Listing<ReplyEntry>)

  datatype Tab = Tab(story: string, communities: Listing<RootEntry>)

  datatype Detail = Detail(projectInfo: ProjectInfo, creatorInfo: CreatorInfo, tab: Tab)

  /** What the view answers: the document, the not-found message, or an exception
      that escapes the view. */
  datatype Response = Ok(detail: Detail) | ProjectNotExist | Uncaught(fault: Fault) {
    function Status(): int {
      match this
      case Ok(_) => 200
      case ProjectNotExist => 404
      case Uncaught(_) => 500
    }

    /** The `message` field of a non-document answer. */
    function Message(): string
      requires ProjectNotExist?
    {
      "PROJECT_NOT_EXIST"
    }
  }

  // ---------------------------------------------------------------------------
  // Row lookups

  /** A related user row, reached through a foreign key. */
  function UserById(users: seq<User>, id: Id): (r: Eval<User>)
    ensures r.Value? ==> r.value in users && r.value.id == id
    ensures r.Raise? ==> r.fault == DoesNotExist && forall u :: u in users ==> u.id != id
    decreases |users|
  {
    if |users| == 0 then Raise(DoesNotExist)
    else if users[0].id == id then Value(users[0])
    else UserById(users[1..], id)
  }

  /** A related category row, reached through a foreign key. */
  function CategoryById(categories: seq<Category>, id: Id): (r: Eval<Category>)
    ensures r.Value? ==> r.value in categories && r.value.id == id
    ensures r.Raise? ==> r.fault == DoesNotExist && forall c :: c in categories ==> c.id != id
    decreases |categories|
  {
    if |categories| == 0 then Raise(DoesNotExist)
    else if categories[0].id == id then Value(categories[0])
    else CategoryById(categories[1..], id)
  }

  /** `u` is the owner of project `p`. */
  predicate IsOwner(p: Project, u: User) {
    u.id == p.userId
  }

  /** The author of comment `c` is a row of `users` whose full name is `name`. */
  predicate AuthoredBy(users: seq<User>, c: Comment, name: string) {
    exists u :: u in users && c.userId == Some(u.id) && u.fullname == name
  }

  /** `community.user.fullname` (or `recomment.user.fullname`) of comment `c`: a NULL
      author or a missing row raise. */
  function AuthorName(users: seq<User>, c: Comment): (r: Eval<string>)
    ensures r.Value? ==> AuthoredBy(users, c, r.value)
    ensures r.Raise? <==> c.userId.None? || forall u :: u in users ==> Some(u.id) != c.userId
  {
    match c.userId
    case None => Raise(AttributeError)
    case Some(uid) =>
      var u :- UserById(users, uid);
      Value(u.fullname)
  }

  // ---------------------------------------------------------------------------
  // project_info pieces

  /** Whether some Like row links project `pid` with user `uid`. */
  function HasLike(likes: seq<Like>, pid: Id, uid: Id): (r: bool)
    ensures r <==> exists l :: l in likes && l.projectId == pid && l.userId == uid
    decreases |likes|
  {
    if |likes| == 0 then false
    else if likes[0].projectId == pid && likes[0].userId == uid then true
    else
      assert forall l :: l in likes[1..] ==> l in likes;
      assert likes == [likes[0]] + likes[1..];
      HasLike(likes[1..], pid, uid)
  }

  /** The `like` flag: false for an anonymous viewer, otherwise whether the viewer
      has liked the project. */
  function LikeFlag(likes: seq<Like>, pid: Id, viewer: Option<Id>): (r: bool)
    ensures r <==> viewer.Some? && exists l :: l in likes && l.projectId == pid && l.userId == viewer.value
    ensures viewer.None? ==> !r
  {
    viewer.Some? && HasLike(likes, pid, viewer.value)
  }

  /** `project.gift_set.all()`. */
  function ProjectGifts(gifts: seq<Gift>, pid: Id): seq<Gift> {
    Seqs.Filter(gifts, (g: Gift) => g.projectId == pid)
  }

  /** `e` presents gift `g`: name as description, price as money, quantity sold as people. */
  predicate Presents(e: OptionEntry, g: Gift) {
    e.id == g.id && e.description == g.name && e.money == g.price
    && e.people == g.quantitySold && e.stock == g.stock
  }

  /** The `option` list: one entry per gift, in the gifts' order. */
  function OptionEntries(gifts: seq<Gift>): (r: seq<OptionEntry>)
    ensures |r| == |gifts|
    ensures forall i :: 0 <= i < |gifts| ==> Presents(r[i], gifts[i])
  {
    seq(|gifts|, i requires 0 <= i < |gifts| =>
      OptionEntry(gifts[i].id, gifts[i].name, gifts[i].price, gifts[i].quantitySold, gifts[i].stock))
  }

  /** `project.category.name`: a NULL category raises. */
  function CategoryName(categories: seq<Category>, p: Project): (r: Eval<string>)
    ensures r.Value? <==> p.categoryId.Some? && exists c :: c in categories && c.id == p.categoryId.value
    ensures r.Value? ==> exists c :: c in categories && c.id == p.categoryId.value && c.name == r.value
  {
    match p.categoryId
    case None => Raise(AttributeError)
    case Some(cid) =>
      var c :- CategoryById(categories, cid);
      Value(c.name)
  }

  /** `project.story_set.get(project_id=project.id)`: exactly one Story row is needed. */
  function StoryOf(stories: seq<Story>, pid: Id): (r: Eval<Story>)
    ensures r.Value? ==> r.value in stories && r.value.projectId == pid
    ensures r.Value? <==> |Seqs.Filter(stories, (s: Story) => s.projectId == pid)| == 1
  {
    Get(Seqs.Filter(stories, (s: Story) => s.projectId == pid))
  }

  // ---------------------------------------------------------------------------
  // tab.communities

  /** `e` presents reply `c`. */
  predicate PresentsReply(users: seq<User>, e: ReplyEntry, c: Comment) {
    e.comment == c.text && e.createdAt == c.createdAt && AuthoredBy(users, c, e.user)
  }

  /** The author of `c` can be read: a non-NULL user id that names a row. */
  predicate HasAuthor(users: seq<User>, c: Comment) {
    c.userId.Some? && exists u :: u in users && u.id == c.userId.value
  }

  /** The `recomment` entries of the replies `cs`, in order; the first reply whose
      author cannot be read raises. */
  function ReplyEntries(users: seq<User>, cs: seq<Comment>): (r: Eval<seq<ReplyEntry>>)
    ensures r.Value? ==> |r.value| == |cs|
    ensures r.Value? ==> forall i :: 0 <= i < |cs| ==> PresentsReply(users, r.value[i], cs[i])
    ensures r.Value? <==> forall i :: 0 <= i < |cs| ==> HasAuthor(users, cs[i])
    decreases |cs|
  {
    if |cs| == 0 then Value([])
    else
      var name :- AuthorName(users, cs[0]);
      var rest :- ReplyEntries(users, cs[1..]);
      Value([ReplyEntry(name, cs[0].text, cs[0].createdAt)] + rest)
  }

  /** `e` presents root comment `c` at instant `now`, with its direct replies. */
  predicate PresentsRoot(db: Store, now: Instant, e: RootEntry, c: Comment) {
    var replies := Children(db.comments, c.id);
    && e.comment == c.text
    && e.createdAt == c.createdAt
    && AuthoredBy(db.users, c, e.user)
    && e.pastDate * MICROS_PER_DAY <= now - c.updatedAt < (e.pastDate + 1) * MICROS_PER_DAY
    && (e.recomment.Blank? <==> |replies| == 0)
    && (e.recomment.Items? ==>
          && |e.recomment.items| == |replies|
          && forall k :: 0 <= k < |replies| ==> PresentsReply(db.users, e.recomment.items[k], replies[k]))
  }

  /** Root comment `c` and each of its direct replies have a readable author. */
  predicate Presentable(db: Store, c: Comment) {
    var replies := Children(db.comments, c.id);
    HasAuthor(db.users, c) && forall k :: 0 <= k < |replies| ==> HasAuthor(db.users, replies[k])
  }

  /** One element of `communities`. */
  function RootEntryOf(db: Store, now: Instant, c: Comment): (r: Eval<RootEntry>)
    ensures r.Value? ==> PresentsRoot(db, now, r.value, c)
    ensures r.Value? <==> Presentable(db, c)
  {
    var name :- AuthorName(db.users, c);
    var replies := Children(db.comments, c.id);
    var recomment :-
      if |replies| > 0 then
        var es :- ReplyEntries(db.users, replies);
        Value(Items(es))
      else Value(Blank);
    Value(RootEntry(name, c.text, Days(now - c.updatedAt), c.createdAt, recomment))
  }

  /** The entries of the root comments `cs`, in order. */
  function RootEntries(db: Store, now: Instant, cs: seq<Comment>): (r: Eval<seq<RootEntry>>)
    ensures r.Value? ==> |r.value| == |cs|
    ensures r.Value? ==> forall i :: 0 <= i < |cs| ==> PresentsRoot(db, now, r.value[i], cs[i])
    ensures r.Value? <==> forall i :: 0 <= i < |cs| ==> Presentable(db, cs[i])
    decreases |cs|
  {
    if |cs| == 0 then Value([])
    else
      var e :- RootEntryOf(db, now, cs[0]);
      var rest :- RootEntries(db, now, cs[1..]);
      Value([e] + rest)
  }

  /** Whether project `pid` has any comment at all, root or reply. */
  predicate HasComments(comments: seq<Comment>, pid: Id) {
    exists c :: c in comments && c.projectId == pid
  }

  /** The root entries `es` list every root comment of project `pid` exactly once,
      newest first, each presented with its replies. Comments created at the same
      instant may come in any order. */
  ghost predicate ListsRoots(db: Store, now: Instant, pid: Id, es: seq<RootEntry>) {
    exists order :: ListsInOrder(db, now, pid, es, order)
  }

  /** `order` is a newest-first arrangement of the root comments of project `pid`,
      and `es` presents it entry by entry. */
  predicate ListsInOrder(db: Store, now: Instant, pid: Id, es: seq<RootEntry>, order: seq<Comment>) {
    && NewestFirst(order)
    && multiset(order) == multiset(Roots(db.comments, pid))
    && |es| == |order|
    && (forall i :: 0 <= i < |es| ==> PresentsRoot(db, now, es[i], order[i]))
  }

  /** A rearrangement lists the same comments, so it is presentable exactly when the
      original is. */
  lemma SameComments(db: Store, roots: seq<Comment>, order: seq<Comment>)
    requires multiset(order) == multiset(roots)
    ensures forall i :: 0 <= i < |order| ==> order[i] in roots
    ensures (forall i :: 0 <= i < |order| ==> Presentable(db, order[i]))
            <==> (forall c :: c in roots ==> Presentable(db, c))
  {
    assert forall i :: 0 <= i < |order| ==> order[i] in multiset(roots);
    if forall i :: 0 <= i < |order| ==> Presentable(db, order[i]) {
      forall c | c in roots
        ensures Presentable(db, c)
      {
        assert c in multiset(order);
        var i :| 0 <= i < |order| && order[i] == c;
      }
    }
  }

  /** `tab.communities`: `''` when the project has no comment at all, otherwise its
      root comments newest first. */
  function Communities(db: Store, now: Instant, pid: Id): (r: Eval<Listing<RootEntry>>)
    ensures r.Value? ==> (r.value.Blank? <==> !HasComments(db.comments, pid))
    ensures r.Value? && r.value.Items? ==> ListsRoots(db, now, pid, r.value.items)
    ensures r.Raise? <==> HasComments(db.comments, pid)
                          && exists c :: c in Roots(db.comments, pid) && !Presentable(db, c)
  {
    var mine := Seqs.Filter(db.comments, (c: Comment) => c.projectId == pid);
    if |mine| == 0 then
      Seqs.FilterEmpty(db.comments, (c: Comment) => c.projectId == pid);
      Value(Blank)
    else
      assert mine[0] in mine;
      var roots := Roots(db.comments, pid);
      var order := SortNewestFirst(roots);
      SameComments(db, roots, order);
      var es :- RootEntries(db, now, order);
      assert ListsInOrder(db, now, pid, es, order);
      Value(Items(es))
  }

  // ---------------------------------------------------------------------------
  // The view

  /** The document for project `p`, evaluated in the order the view builds it. */
  function BuildDetail(db: Store, viewer: Option<Id>, p: Project, now: Instant): (r: Eval<Detail>)
    ensures r.Value? ==> DescribesProject(db, viewer, p, now, r.value)
    ensures p.categoryId.None? ==> r == Raise(AttributeError)
  {
    var category :- CategoryName(db.categories, p);
    var owner :- UserById(db.users, p.userId);
    var story :- StoryOf(db.stories, p.id);
    var communities :- Communities(db, now, p.id);
    Value(Assemble(db, viewer, p, now, category, owner, story, communities))
  }

  /** The document put together from the category name, the owner, the story and
      the comment listing the view looked up. */
  function Assemble(db: Store, viewer: Option<Id>, p: Project, now: Instant, category: string,
                    owner: User, story: Story, communities: Listing<RootEntry>): Detail {
    var info := ProjectInfo(
      category, p.name, p.thumbnailUrl, owner.fullname, p.achievedRate, p.totalAmount,
      Days(p.closingDate - now), p.totalSupporters, p.goalAmount, p.closingDate + ONE_DAY,
      LikeFlag(db.likes, p.id, viewer), OptionEntries(ProjectGifts(db.gifts, p.id)));
    Detail(info, CreatorInfo(owner.fullname, owner.description), Tab(story.content, communities))
  }

  /** `d` is the detail document of project `p` for `viewer` at `now`. */
  ghost predicate DescribesProject(db: Store, viewer: Option<Id>, p: Project, now: Instant, d: Detail) {
    var info := d.projectInfo;
    var gifts := ProjectGifts(db.gifts, p.id);
    // Attributes copied from the project row.
    && info.name == p.name && info.thumbnailUrl == p.thumbnailUrl
    && info.achievedRate == p.achievedRate && info.totalAmount == p.totalAmount
    && info.totalSupporters == p.totalSupporters && info.goalAmount == p.goalAmount
    // The category's name.
    && (exists c :: c in db.categories && Some(c.id) == p.categoryId && c.name == info.category)
    // The owner supplies both display names and the creator description.
    && (exists u :: u in db.users && IsOwner(p, u) && info.creator == u.fullname
          && d.creatorInfo.name == u.fullname && d.creatorInfo.creatorDescription == u.description)
    // Whole days until closing, floored, negative once closed.
    && info.restDate * MICROS_PER_DAY <= p.closingDate - now < (info.restDate + 1) * MICROS_PER_DAY
    // Funds settle one day after closing.
    && info.paymentDate - p.closingDate == ONE_DAY
    && (info.like <==> viewer.Some? && exists l :: l in db.likes && l.projectId == p.id && l.userId == viewer.value)
    && |info.option| == |gifts|
    && (forall i :: 0 <= i < |gifts| ==> Presents(info.option[i], gifts[i]))
    && (exists s :: s in db.stories && s.projectId == p.id && s.content == d.tab.story)
    && (d.tab.communities.Blank? <==> !HasComments(db.comments, p.id))
    && (d.tab.communities.Items? ==> ListsRoots(db, now, p.id, d.tab.communities.items))
  }

  /** The projects whose slug is `uri`. */
  function WithUri(projects: seq<Project>, uri: string): seq<Project> {
    Seqs.Filter(projects, (p: Project) => p.uri == uri)
  }

  /** `ProjectDetailView.get(request, project_uri)`. */
  function ProjectDetail(db: Store, viewer: Option<Id>, uri: string, now: Instant): (r: Response)
    ensures r.ProjectNotExist? <==> forall p :: p in db.projects ==> p.uri != uri
    ensures r.Status() == 404 <==> r.ProjectNotExist?
  {
    var found := WithUri(db.projects, uri);
    if |found| == 0 then
      Seqs.FilterEmpty(db.projects, (p: Project) => p.uri == uri);
      ProjectNotExist
    else
      assert found[0] in found;
      match Get(found)
      case Raise(f) => Uncaught(f)
      case Value(p) =>
        match BuildDetail(db, viewer, p, now)
        case Value(d) => Ok(d)
        case Raise(f) => Uncaught(f)
  }
}

=== FILE: records.dfy ===
/** The rows of the relational schema the views read and write, as immutable
    records. Every table is a sequence in storage order; ids are plain integers.
    Decimal columns (two decimal places) are counted in hundredths. */
module Records {

  type Id = int

  /** Microseconds since an arbitrary epoch: the resolution of Python's datetime. */
  type Instant = int

  /** A DecimalField with two decimal places, counted in hundredths ('0.50' is 50). */
  type Decimal = int

  /** A nullable column or an optional value. */
  datatype Option<+T> = None | Some(value: T)

  /** The exceptions the views let escape; the framework answers each with status 500. */
  datatype Fault =
    | DoesNotExist            // a `.get` or a related-object access found no row
    | MultipleObjectsReturned // a `.get` found more than one row
    | AttributeError          // an attribute was read from a NULL column

  /** A computation that either yields a value or raises a `Fault`; usable with `:-`. */
  datatype Eval<+T> = Value(value: T) | Raise(fault: Fault) {
    predicate IsFailure() {
      Raise?
    }

    function PropagateFailure<U>(): Eval<U>
      requires Raise?
    {
      Raise(fault)
    }

    function Extract(): T
      requires Value?
    {
      value
    }
  }

  /** The rule of `.get(...)` applied to the rows its filter matched: exactly one
      row is returned, none or several raise. */
  function Get<T>(matched: seq<T>): (r: Eval<T>)
    ensures r.Value? <==> |matched| == 1
    ensures r.Value? ==> r.value == matched[0]
    ensures r == Raise(DoesNotExist) <==> |matched| == 0
    ensures r == Raise(MultipleObjectsReturned) <==> |matched| > 1
  {
    if |matched| == 0 then Raise(DoesNotExist)
    else if |matched| > 1 then Raise(MultipleObjectsReturned)
    else Value(matched[0])
  }

  datatype User = User(
    id: Id,
    fullname: string,
    email: string,
    password: Option<string>,
    profileImage: Option<string>,
    description: Option<string>,
    phoneNumber: Option<string>)

  datatype Verification = Verification(id: Id, code: string, email: string, createdAt: Instant)

  datatype Category = Category(id: Id, name: string)

  datatype Project = Project(
    id: Id,
    userId: Id,
    categoryId: Option<Id>,
    name: string,
    openingDate: Instant,
    closingDate: Instant,
    totalSupporters: int,
    achievedRate: Decimal,
    totalAmount: Decimal,
    thumbnailUrl: string,
    goalAmount: Decimal,
    summary: string,
    uri: string)

  datatype Gift = Gift(id: Id, projectId: Id, name: string, price: Decimal, quantitySold: int, stock: int)

  /** A community comment; a comment whose parent is `None` is a root, any other is a reply. */
  datatype Comment = Comment(
    id: Id,
    userId: Option<Id>,
    projectId: Id,
    parentId: Option<Id>,
    text: string,
    createdAt: Instant,
    updatedAt: Instant)

  datatype Story = Story(id: Id, projectId: Id, content: string)

  datatype Like = Like(id: Id, projectId: Id, userId: Id)
}

=== FILE: seqs.dfy ===
/** Order-preserving selection from a table, the shape of every ORM `.filter(...)`
    and reverse-relation `_set.all()` the views evaluate. */
module Seqs {

  /** The elements of `s` that satisfy `keep`, in their storage order. */
  function Filter<T(!new)>(s: seq<T>, keep: T -> bool): (r: seq<T>)
    ensures |r| <= |s|
    ensures forall x :: x in r <==> x in s && keep(x)
    ensures forall i :: 0 <= i < |r| ==> keep(r[i])
    decreases |s|
  {
    if |s| == 0 then []
    else if keep(s[0]) then [s[0]] + Filter(s[1..], keep)
    else Filter(s[1..], keep)
  }

  /** Filtering distributes over concatenation, so the relative storage order of the
      selected rows is kept. */
  lemma {:induction false} FilterConcat<T(!new)>(a: seq<T>, b: seq<T>, keep: T -> bool)
    ensures Filter(a + b, keep) == Filter(a, keep) + Filter(b, keep)
    decreases |a|
  {
    if |a| == 0 {
      assert a + b == b;
    } else {
      assert (a + b)[1..] == a[1..] + b;
      FilterConcat(a[1..], b, keep);
    }
  }

  /** A selection is empty exactly when no element qualifies. */
  lemma FilterEmpty<T(!new)>(s: seq<T>, keep: T -> bool)
    ensures Filter(s, keep) == [] <==> forall x :: x in s ==> !keep(x)
  {
  }
}

=== FILE: user_properties.dfy ===
/** Facts about the account views that relate several requests or pin the order of
    their checks. */
module UserProperties {
  import opened Records
  import opened Clock
  import Seqs
  import opened UserViews

  // ---------------------------------------------------------------------------
  // Sign-up

  /** The first failing check decides the answer, and every failure leaves the
      tables as they were. */
  lemma SignUpErrorOrder(db: Accounts, body: Body, crypto: Crypto)
    ensures !HasSignUpKeys(body) ==> SignUp(db, body, crypto) == Step(Answer(KeyError), db)
    ensures HasSignUpKeys(body) && (exists u :: u in db.users && u.email == body["email"]) ==>
              SignUp(db, body, crypto) == Step(Answer(AlreadyExist), db)
    ensures HasSignUpKeys(body) && !(exists u :: u in db.users && u.email == body["email"])
            && !(MINIMUM_FULLNAME_LENGTH <= |body["fullname"]| <= MAXIMUM_FULLNAME_LENGTH) ==>
              SignUp(db, body, crypto) == Step(Answer(FullnameValidationError), db)
    ensures HasSignUpKeys(body) && !(exists u :: u in db.users && u.email == body["email"])
            && MINIMUM_FULLNAME_LENGTH <= |body["fullname"]| <= MAXIMUM_FULLNAME_LENGTH
            && !(MINIMUM_PASSWORD_LENGTH <= |body["password"]| <= MAXIMUM_PASSWORD_LENGTH) ==>
              SignUp(db, body, crypto) == Step(Answer(PasswordValidationError), db)
  {
  }

  /** A successful sign-up inserts one user under the next id, with the given
      e-mail and full name and the hash of the password; every earlier user is
      untouched and the e-mail is taken afterwards. */
  lemma SignUpInsertsOneUser(db: Accounts, body: Body, crypto: Crypto)
    requires SignUp(db, body, crypto).response == Answer(Success)
    ensures var after := SignUp(db, body, crypto).after;
            && |after.users| == |db.users| + 1
            && (forall i :: 0 <= i < |db.users| ==> after.users[i] == db.users[i])
            && after.users[|db.users|].id == db.nextUserId
            && after.users[|db.users|].email == body["email"]
            && after.users[|db.users|].fullname == body["fullname"]
            && after.users[|db.users|].password == Some(crypto.hashpw(body["password"]))
            && HasEmail(after.users, body["email"])
  {
  }

  /** Sign-up keeps the tables well formed: ids stay distinct and below the next id,
      and no e-mail is registered twice. */
  lemma SignUpPreservesWellFormed(db: Accounts, body: Body, crypto: Crypto)
    requires WellFormed(db)
    ensures WellFormed(SignUp(db, body, crypto).after)
  {
  }

  /** Signing up twice with one e-mail: the second request is refused and changes
      nothing. */
  lemma SignUpTwiceRefused(db: Accounts, body: Body, body2: Body, crypto: Crypto)
    requires SignUp(db, body, crypto).response == Answer(Success)
    requires HasSignUpKeys(body2) && body2["email"] == body["email"]
    ensures var after := SignUp(db, body, crypto).after;
            SignUp(after, body2, crypto) == Step(Answer(AlreadyExist), after)
  {
  }

  /** Under distinct e-mails, at most one user has a given e-mail. */
  lemma {:induction false} AtMostOneWithEmail(users: seq<User>, email: string)
    requires forall i, j :: 0 <= i < j < |users| ==> users[i].email != users[j].email
    ensures |WithEmail(users, email)| <= 1
    decreases |users|
  {
    if |users| > 0 {
      assert users == [users[0]] + users[1..];
      Seqs.FilterConcat([users[0]], users[1..], (u: User) => u.email == email);
      AtMostOneWithEmail(users[1..], email);
      if users[0].email == email {
        assert forall u :: u in users[1..] ==> u.email != email;
        Seqs.FilterEmpty(users[1..], (u: User) => u.email == email);
      }
    }
  }

  /** The user a successful sign-up inserted is the only one with that e-mail. */
  lemma {:induction false} NewUserFoundByEmail(db: Accounts, body: Body, crypto: Crypto)
    requires SignUp(db, body, crypto).response == Answer(Success)
    ensures WithEmail(SignUp(db, body, crypto).after.users, body["email"]) == [NewUser(db, body, crypto)]
  {
    var email := body["email"];
    var keep := (u: User) => u.email == email;
    Seqs.FilterConcat(db.users, [NewUser(db, body, crypto)], keep);
    Seqs.FilterEmpty(db.users, keep);
    assert [NewUser(db, body, crypto)][1..] == [];
  }

  /** Sign-up then sign-in: once a user has signed up, signing in with the same
      e-mail and password succeeds with a token over the new user's id, provided
      the password check accepts the hash it made. */
  lemma SignUpThenSignIn(db: Accounts, body: Body, crypto: Crypto)
    requires SignUp(db, body, crypto).response == Answer(Success)
    requires crypto.checkpw(body["password"], crypto.hashpw(body["password"]))
    ensures var after := SignUp(db, body, crypto).after;
            var login := map["email" := body["email"], "password" := body["password"]];
            SignIn(after, login, crypto) == Reply(Success, Some(crypto.encode(db.nextUserId)))
  {
    NewUserFoundByEmail(db, body, crypto);
    SignUpInsertsOneUser(db, body, crypto);
  }

  // ---------------------------------------------------------------------------
  // Sign-in

  /** With the keys present and exactly one user `u` for the e-mail, the answer is
      decided by the password check alone. */
  lemma SignInDecidedByPassword(db: Accounts, body: Body, crypto: Crypto, u: User, hashed: string)
    requires HasSignInKeys(body)
    requires WithEmail(db.users, body["email"]) == [u] && u.password == Some(hashed)
    ensures crypto.checkpw(body["password"], hashed) ==>
              SignIn(db, body, crypto) == Reply(Success, Some(crypto.encode(u.id)))
    ensures !crypto.checkpw(body["password"], hashed) ==>
              SignIn(db, body, crypto) == Answer(SigninFail)
  {
  }

  /** In well-formed tables the lookup by e-mail never finds two users. */
  lemma SignInNeverAmbiguous(db: Accounts, body: Body, crypto: Crypto)
    requires WellFormed(db)
    ensures SignIn(db, body, crypto) != Uncaught(MultipleObjectsReturned)
  {
    if HasSignInKeys(body) {
      AtMostOneWithEmail(db.users, body["email"]);
    }
  }

  // ---------------------------------------------------------------------------
  // Code validation

  /** The three transitions of the one verification row `v` issued for the e-mail:
      expiry is tested first and deletes the row whatever code was sent; within the
      window a wrong code keeps the row and the right one consumes it. */
  lemma ValidateCodeTransitions(db: Accounts, body: Body, now: Instant, v: Verification)
    requires HasCodeKeys(body) && IssuedFor(db.verifications, body["email"]) == [v]
    ensures Seconds(now - v.createdAt) >= TIME_LIMIT ==>
              ValidateCode(db, body, now) == Step(Answer(TimeOut), db.(verifications := Delete(db.verifications, v.id)))
    ensures Seconds(now - v.createdAt) < TIME_LIMIT && body["code"] != v.code ==>
              ValidateCode(db, body, now) == Step(Answer(InvalidCode), db)
    ensures Seconds(now - v.createdAt) < TIME_LIMIT && body["code"] == v.code ==>
              ValidateCode(db, body, now) == Step(Answer(EmailValidateSuccess), db.(verifications := Delete(db.verifications, v.id)))
  {
  }

  /** A request without both keys is refused and changes nothing. */
  lemma ValidateCodeNeedsKeys(db: Accounts, body: Body, now: Instant)
    requires !HasCodeKeys(body)
    ensures ValidateCode(db, body, now) == Step(Answer(NeedCode), db)
  {
  }

  /** With distinct row ids, a consumed or expired row is the only one removed. */
  lemma DeleteRemovesOne(vs: seq<Verification>, i: nat)
    requires i < |vs|
    requires forall a, b :: 0 <= a < b < |vs| ==> vs[a].id != vs[b].id
    ensures vs[i] !in Delete(vs, vs[i].id)
    ensures forall j :: 0 <= j < |vs| && j != i ==> vs[j] in Delete(vs, vs[i].id)
  {
  }

  /** As written, `.seconds` ignores whole days: a row issued `k` days and fewer than
      TIME_LIMIT seconds ago has not expired, for every `k`. */
  lemma {:induction false} StaleAfterWholeDays(k: nat, e: int)
    requires 0 <= e < TIME_LIMIT * MICROS_PER_SECOND
    ensures !ExpiredAsWritten(k * MICROS_PER_DAY + e)
    decreases k
  {
    if k == 0 {
      SecondsWithinOneDay(e);
    } else {
      StaleAfterWholeDays(k - 1, e);
      SecondsForgetsDays((k - 1) * MICROS_PER_DAY + e);
      assert (k - 1) * MICROS_PER_DAY + e + MICROS_PER_DAY == k * MICROS_PER_DAY + e;
    }
  }

  /** The input that shows it: a code issued one day and five seconds ago is
      accepted as written, and refused as expired by the corrected view. */
  lemma StaleCodeAccepted()
    ensures var db := Accounts([], 1, [Verification(1, "123456", "a@b.c", 0)]);
            var body := map["code" := "123456", "email" := "a@b.c"];
            var now := MICROS_PER_DAY + 5 * MICROS_PER_SECOND;
            && ValidateCode(db, body, now).response == Answer(EmailValidateSuccess)
            && ValidateCodeWithinWindow(db, body, now).response == Answer(TimeOut)
  {
    StaleAfterWholeDays(1, 5 * MICROS_PER_SECOND);
  }

  /** Within the first day after issue the two expiry tests agree, so the
      correction changes nothing for a row less than a day old. */
  lemma ExpiryAgreesWithinOneDay(elapsed: int)
    requires 0 <= elapsed < MICROS_PER_DAY
    ensures ExpiredAsWritten(elapsed) <==> ExpiredTotal(elapsed)
  {
  }
}

=== FILE: user_views.dfy ===
/** The e-mail account views: `SignUpView.post`, `ValidateCodeView.post` and
    `SignInView.post`, as functions from the account tables and a request body to a
    response and the tables afterwards. */
module UserViews {
  import opened Records
  import opened Clock
  import Seqs

  /** The decoded JSON request body: the string fields the views read. */
  type Body = map<string, string>

  /** The tables the views touch. `nextUserId` is the id the database assigns to
      the next user it inserts. */
  datatype Accounts = Accounts(users: seq<User>, nextUserId: Id, verifications: seq<Verification>)

  /** The foreign cryptography the views call: bcrypt's salted hash and check, and
      the signed token over a user id. */
  datatype Crypto = Crypto(
    hashpw: string -> string,
    checkpw: (string, string) -> bool,
    encode: Id -> string)

  /** The `message` of each answer, with its text and HTTP status. */
  datatype Message =
    | KeyError | AlreadyExist | FullnameValidationError | PasswordValidationError | Success
    | NeedCode | TimeOut | InvalidCode | EmailValidateSuccess
    | InvalidKey | InvalidUser | SigninFail
  {
    function Text(): string {
      match this
      case KeyError => "KEY_ERROR"
      case AlreadyExist => "ALREADY_EXIST"
      case FullnameValidationError => "FULLNAME_VALIDATION_ERROR"
      case PasswordValidationError => "PASSWORD_VALIDATION_ERROR"
      case Success => "SUCCESS"
      case NeedCode => "NEED_CODE"
      case TimeOut => "TIME_OUT"
      case InvalidCode => "INVALID_CODE"
      case EmailValidateSuccess => "EMAIL_VALIDATE_SUCCESS"
      case InvalidKey => "INVALID_KEY"
      case InvalidUser => "INVALID_USER"
      case SigninFail => "SIGNIN_FAIL"
    }

    function Status(): int {
      match this
      case Success | EmailValidateSuccess => 200
      case InvalidUser | SigninFail => 401
      case _ => 400
    }
  }

  /** A JSON answer, with the access token only on a successful sign-in, or an
      exception that escapes the view. */
  datatype Response = Reply(message: Message, token: Option<string>) | Uncaught(fault: Fault) {
    function Status(): int {
      match this
      case Reply(m, _) => m.Status()
      case Uncaught(_) => 500
    }
  }

  /** A response together with the tables after the request. */
  datatype Step = Step(response: Response, after: Accounts)

  function Answer(m: Message): Response {
    Reply(m, None)
  }

  const MINIMUM_FULLNAME_LENGTH: int := 2
  const MAXIMUM_FULLNAME_LENGTH: int := 40
  const MINIMUM_PASSWORD_LENGTH: int := 6
  const MAXIMUM_PASSWORD_LENGTH: int := 20

  /** A verification code expires TIME_LIMIT seconds after it was issued. */
  const TIME_LIMIT: int := 60

  /** `User.objects.filter(email=email).exists()`. */
  function HasEmail(users: seq<User>, email: string): (r: bool)
    ensures r <==> exists u :: u in users && u.email == email
    decreases |users|
  {
    if |users| == 0 then false
    else if users[0].email == email then true
    else
      assert users == [users[0]] + users[1..];
      HasEmail(users[1..], email)
  }

  /** The users whose e-mail is `email`. */
  function WithEmail(users: seq<User>, email: string): seq<User> {
    Seqs.Filter(users, (u: User) => u.email == email)
  }

  /** The database invariant the account tables keep: ids are distinct and below
      the next id to assign, and e-mails are distinct (the column is unique). */
  predicate WellFormed(db: Accounts) {
    && (forall i, j :: 0 <= i < j < |db.users| ==> db.users[i].id != db.users[j].id)
    && (forall i, j :: 0 <= i < j < |db.users| ==> db.users[i].email != db.users[j].email)
    && (forall i :: 0 <= i < |db.users| ==> db.users[i].id < db.nextUserId)
  }

  // ---------------------------------------------------------------------------
  // SignUpView.post

  /** The fields a sign-up request must carry. */
  predicate HasSignUpKeys(body: Body) {
    "fullname" in body && "email" in body && "password" in body
  }

  /** The user row a successful sign-up inserts. */
  function NewUser(db: Accounts, body: Body, crypto: Crypto): User
    requires HasSignUpKeys(body)
  {
    User(db.nextUserId, body["fullname"], body["email"], Some(crypto.hashpw(body["password"])), None, None, None)
  }

  /** `SignUpView.post`. The checks run in a fixed order: the three keys, a taken
      e-mail, the full name's length, the password's length. */
  function SignUp(db: Accounts, body: Body, crypto: Crypto): (s: Step)
    ensures s.response.Reply? && s.response.token.None?
    ensures s.response.message != Success ==> s.after == db
    ensures s.response.message == Success <==>
              && HasSignUpKeys(body)
              && !(exists u :: u in db.users && u.email == body["email"])
              && MINIMUM_FULLNAME_LENGTH <= |body["fullname"]| <= MAXIMUM_FULLNAME_LENGTH
              && MINIMUM_PASSWORD_LENGTH <= |body["password"]| <= MAXIMUM_PASSWORD_LENGTH
    ensures s.response.message == Success ==>
              && s.after.users == db.users + [NewUser(db, body, crypto)]
              && s.after.nextUserId == db.nextUserId + 1
              && s.after.verifications == db.verifications
  {
    if !HasSignUpKeys(body) then Step(Answer(KeyError), db)
    else
      var fullname := body["fullname"];
      var email := body["email"];
      var password := body["password"];
      if HasEmail(db.users, email) then Step(Answer(AlreadyExist), db)
      else if |fullname| < MINIMUM_FULLNAME_LENGTH || |fullname| > MAXIMUM_FULLNAME_LENGTH then
        Step(Answer(FullnameValidationError), db)
      else if |password| < MINIMUM_PASSWORD_LENGTH || |password| > MAXIMUM_PASSWORD_LENGTH then
        Step(Answer(PasswordValidationError), db)
      else
        Step(Answer(Success), db.(users := db.users + [NewUser(db, body, crypto)], nextUserId := db.nextUserId + 1))
  }

  // ---------------------------------------------------------------------------
  // ValidateCodeView.post

  /** The fields a validation request must carry. */
  predicate HasCodeKeys(body: Body) {
    "code" in body && "email" in body
  }

  /** `trier.delete()`: removes the rows whose id is `id`. */
  function Delete(vs: seq<Verification>, id: Id): (r: seq<Verification>)
    ensures forall v :: v in r <==> v in vs && v.id != id
  {
    Seqs.Filter(vs, (v: Verification) => v.id != id)
  }

  /** The verification rows issued for `email`. */
  function IssuedFor(vs: seq<Verification>, email: string): seq<Verification> {
    Seqs.Filter(vs, (v: Verification) => v.email == email)
  }

  /** The validation state machine for one verification row, with the test that
      decides, from the time elapsed since the row was issued, that it has expired. */
  function Validate(db: Accounts, body: Body, now: Instant, expired: int -> bool): (s: Step)
    ensures s.after.users == db.users && s.after.nextUserId == db.nextUserId
    ensures s.response.Reply? ==> s.response.token.None?
    ensures s.response == Answer(NeedCode) <==> !HasCodeKeys(body)
    ensures s.response.Uncaught? <==> HasCodeKeys(body) && |IssuedFor(db.verifications, body["email"])| != 1
    ensures s.response !in {Answer(TimeOut), Answer(EmailValidateSuccess)} ==> s.after == db
    ensures s.response in {Answer(TimeOut), Answer(EmailValidateSuccess)} ==>
              && HasCodeKeys(body)
              && IssuedFor(db.verifications, body["email"]) != []
              && var v := IssuedFor(db.verifications, body["email"])[0];
                 s.after.verifications == Delete(db.verifications, v.id)
    ensures s.response == Answer(TimeOut) ==>
              exists v :: v in db.verifications && v.email == body["email"] && expired(now - v.createdAt)
    ensures s.response == Answer(EmailValidateSuccess) ==>
              exists v :: v in db.verifications && v.email == body["email"] && v.code == body["code"]
                          && !expired(now - v.createdAt)
  {
    if !HasCodeKeys(body) then Step(Answer(NeedCode), db)
    else
      var code := body["code"];
      var email := body["email"];
      var issued := IssuedFor(db.verifications, email);
      match Get(issued)
      case Raise(f) => Step(Uncaught(f), db)
      case Value(trier) =>
        assert trier in issued;
        if expired(now - trier.createdAt) then
          Step(Answer(TimeOut), db.(verifications := Delete(db.verifications, trier.id)))
        else if code != trier.code then
          Step(Answer(InvalidCode), db)
        else
          Step(Answer(EmailValidateSuccess), db.(verifications := Delete(db.verifications, trier.id)))
  }

  /** The view's expiry test: `(now - created_at).seconds >= TIME_LIMIT`. The
      `.seconds` field drops whole days, so this is the elapsed time modulo one day. */
  predicate ExpiredAsWritten(elapsed: int) {
    Seconds(elapsed) >= TIME_LIMIT
  }

  /** `ValidateCodeView.post` as written. */
  function ValidateCode(db: Accounts, body: Body, now: Instant): (s: Step)
    ensures s.response == Answer(EmailValidateSuccess) ==>
              && HasCodeKeys(body)
              && exists v :: v in db.verifications && v.email == body["email"] && v.code == body["code"]
                               && Seconds(now - v.createdAt) < TIME_LIMIT
    ensures s.response == Answer(TimeOut) ==>
              && HasCodeKeys(body)
              && exists v :: v in db.verifications && v.email == body["email"]
                               && Seconds(now - v.createdAt) >= TIME_LIMIT
  {
    Validate(db, body, now, ExpiredAsWritten)
  }

  /** The expiry test the time limit evidently intends: the whole elapsed time,
      `(now - created_at).total_seconds() >= TIME_LIMIT`. */
  predicate ExpiredTotal(elapsed: int) {
    elapsed >= TIME_LIMIT * MICROS_PER_SECOND
  }

  /** `ValidateCodeView.post` with the expiry test measuring the whole elapsed time:
      a code is accepted only within TIME_LIMIT seconds of being issued. */
  function ValidateCodeWithinWindow(db: Accounts, body: Body, now: Instant): (s: Step)
    ensures s.response == Answer(EmailValidateSuccess) ==>
              && HasCodeKeys(body)
              && exists v :: v in db.verifications && v.email == body["email"] && v.code == body["code"]
                               && now - v.createdAt < TIME_LIMIT * MICROS_PER_SECOND
  {
    Validate(db, body, now, ExpiredTotal)
  }

  // ---------------------------------------------------------------------------
  // SignInView.post

  /** The fields a sign-in request must carry. */
  predicate HasSignInKeys(body: Body) {
    "email" in body && "password" in body
  }

  /** `SignInView.post`: reads only, so the tables are unchanged. A user without a
      password (one created through Kakao) makes the check raise. */
  function SignIn(db: Accounts, body: Body, crypto: Crypto): (r: Response)
    ensures r == Answer(InvalidKey) <==> !HasSignInKeys(body)
    ensures r == Answer(InvalidUser) <==>
              HasSignInKeys(body) && !exists u :: u in db.users && u.email == body["email"]
    ensures r.Reply? && r.message == Success ==>
              exists u :: u in db.users && u.email == body["email"] && u.password.Some?
                          && crypto.checkpw(body["password"], u.password.value)
                          && r.token == Some(crypto.encode(u.id))
    ensures r.Reply? && r.message != Success ==> r.token.None?
  {
    if !HasSignInKeys(body) then Answer(InvalidKey)
    else
      var email := body["email"];
      var password := body["password"];
      if !HasEmail(db.users, email) then Answer(InvalidUser)
      else
        match Get(WithEmail(db.users, email))
        case Raise(f) => Uncaught(f)
        case Value(user) =>
          assert user in WithEmail(db.users, email);
          match user.password
          case None => Uncaught(AttributeError)
          case Some(hashed) =>
            if crypto.checkpw(password, hashed) then Reply(Success, Some(crypto.encode(user.id)))
            else Answer(SigninFail)
  }
}
